=== FILE: README.md ===
# FlightAssistantAgent: the human-approval gate, in Dafny

FlightAssistantAgent is a Streamlit chat front end for an airline customer-support agent. It is built on a LangGraph state graph:

- A `fetch_user_info` node loads the passenger's flight data.
- An `assistant` node asks the language model for the next step.
- The model's tool calls go to one of two tool nodes:
  - `safe_tools` for read-only lookups;
  - `sensitive_tools` for changing or cancelling a ticket.
- The graph is compiled to halt before `sensitive_tools`. The page then shows a confirmation dialog. Approval resumes the halted run. Denial answers the pending call with a fixed tool message.

This project models that core as immutable datatypes and pure functions, and proves its properties. The language model, the tool executors and the compiled graph's `stream` and `invoke` calls are arbitrary function-typed parameters. Every property holds whatever they return, with one exception. The gate invariant (`Session.ApplyKeepsGate`, `Session.GateConsistentAlongRun`) assumes `FaithfulStream`: the graph reports a pending node only after streaming a state whose last message proposes a sensitive call, as the compiled graph with its halt before `sensitive_tools` does.

Modules, following the program's structure:

- `Messages`: LangChain messages reduced to the fields the core reads. This covers role, content (a string or a list of blocks), tool calls, the answered call id and the message id.
- `Tools` (`tools.py`): the error handler, the fallback around every tool node, and `_print_event` with its de-duplication and truncation.
- `AssistantNode` (`src/graph_node.py`): the empty-response re-prompt loop.
- `Graph` (`src/graph_node.py`, `app.py`): the safe and sensitive tool lists, `route_tools`, the edge wiring, and an executor for the compiled graph. The executor halts before the sensitive node.
- `Session` (`app.py`): the page's session record. Its transitions are `handle_chat_input`, the two branches of `confirm_change`, and `reset_chat`. The dialog's prompt table lives here too.
- `FlightSearch` (`app.py`): the parameterised SQL text and the parameter list that `search_flights` builds.
- `StreamData` (`app.py`): the word-by-word chunking of a reply.
- `Chars` and `Wrappers`: character counting, `Option` and `Result`.

The source's loops are unbounded:

- the re-prompt loop repeats while the model answers with nothing;
- the graph has no loop bound of its own in this code: it runs until it ends or halts, or until the library's own step limit stops it (see `Graph.Execute` under Left out).

The model runs each for at most `fuel` steps. A result of "still running" is distinct from every real outcome.

## Model

| member | source | states |
|---|---|---|
| Graph.RouteTools | src/graph_node.py:121-132 | With no message the routing fails. If the last message has no tool call, the route is END. Otherwise it is the sensitive node exactly when the first call's name is a sensitive tool name, and the safe node exactly when it is not. Each case is stated in both directions. |
| Graph.RouteReadsOnlyFirstCall | src/graph_node.py:127-132 | Only `tool_calls[0]` is inspected. Two message lists agree on the route when their last messages agree on having tool calls and on the first call's name, whatever their other calls are. |
| Graph.SensitiveNamesExact | src/graph_node.py:74-89 | The sensitive names are exactly `update_ticket_to_new_flight` and `cancel_ticket`, and none of the four safe tools is among them. |
| Graph.SafeToolIsNeverConfirmed | src/graph_node.py:129-132 | A first call to any safe tool is routed to the safe node, never to the confirmation gate. |
| AssistantNode.Call | src/graph_node.py:31-45 | The loop exits only with a reply that has tool calls or usable text: a non-empty string, or a first block with non-empty text. That reply is the model's answer on the original messages plus the exact number of corrective messages appended so far. Every earlier answer was empty. Running out of fuel means every attempt within the fuel was empty. |
| AssistantNode.CallFindsFirstUsable | src/graph_node.py:32-44 | The loop stops at the first usable answer: with enough fuel it returns that answer and its number of re-prompts. |
| AssistantNode.RepromptExtendsByOne | src/graph_node.py:41-42 | Each iteration appends exactly one user message, "Respond with a real output.", and keeps the earlier messages as a prefix. |
| AssistantNode.WithReprompts | src/graph_node.py:41-42 | After n iterations, the state is the original messages unchanged, followed by n corrective messages. User info is untouched. |
| AssistantNode.RepromptShift | src/graph_node.py:41-42 | One re-prompt followed by n more equals n + 1 re-prompts. This links the single step to the closed form. |
| Graph.Step | src/graph_node.py:104-139 | Every node moves only along an edge of the graph and only appends to the messages. Only the assistant can stall. The assistant step succeeds exactly when the re-prompt loop returns a reply. That reply is then the one message appended, and the next node is exactly the one `route_tools` chooses for the new messages. Each tool node runs its own executor behind the fallback: it fails exactly when that fallback fails and otherwise appends exactly its output. Control reaches the sensitive node only when the route is sensitive. It reaches END only when the route is END and the last message has text. |
| Graph.ToolStep | tools.py:170-173 | A tool node with its fallback hands control back to the assistant. It appends exactly the fallback's output: the tool's messages, or the error handler's. It fails exactly when the error handler itself fails. |
| Graph.Execute | app.py:72-78 | The executed nodes form a path of the graph, and messages are only appended. The sensitive node never runs except as the first node of a resumed run. A halt happens only on a sensitive route. Finishing means the route is END and the reply has text. When the run ends right after an assistant step, it halts exactly when that step's reply routes to the sensitive tools, and finishes otherwise. A run runs out of fuel only after using all of it, or when the assistant stalls: after any tool step it goes on. A run finishes, or halts other than at a resumed start, only right after an assistant step. It crashes only right after a tool node whose fallback failed on the final messages. |
| Graph.Invoke | app.py:72-78 | A new turn starts at the entry, keeps the old messages and the input as a prefix, and never visits the sensitive node. `Graph.InvokeIgnoresSensitiveTools` shows it never consults the sensitive executor either. |
| Graph.Resume | app.py:72-78 | Resuming after a halt runs the sensitive node first, and visits it only that once. `Graph.ResumeConsultsSensitiveToolsOnce` shows the executor is consulted only there. |
| Graph.StepIgnoresSensitiveTools | src/graph_node.py:113-116 | Every node except the sensitive-tool node is the same whatever the sensitive executor is. Each tool node is wired to its own tool list. |
| Graph.ExecuteIgnoresSensitiveTools | app.py:72-78 | A run that is not a resumption is the same whatever the sensitive executor is. So it never runs a ticket-changing tool. |
| Graph.InvokeIgnoresSensitiveTools | app.py:197-210 | A new turn, and so a denial, is the same whatever the sensitive executor is. It runs no ticket-changing tool. |
| Graph.ResumeConsultsSensitiveToolsOnce | app.py:180-185 | An approval consults the sensitive executor only once, on the halted messages. Any executor that agrees there gives the same run. |
| Graph.SensitiveRouteHalts | app.py:77 | Whenever an assistant step's reply routes to the sensitive tools, the run halts right after that step, on that state, before any tool runs. |
| Graph.SensitiveFirstReplyHaltsTurn | src/graph_node.py:130-131 | A new turn whose first assistant reply proposes a sensitive call halts after start, fetch_user_info and the assistant. Its state is the input, the user info and that reply. |
| Graph.ApprovalRunsPendingCallFirst | app.py:180-185 | Approval injects nothing. The sensitive node runs on exactly the halted messages, and its replies directly follow them. If the error handler fails, the run crashes with the state unchanged. |
| Graph.FetchUserInfoFirst | src/graph_node.py:110-111 | In any run from the entry, `fetch_user_info` is the second node and comes before every assistant step. |
| Graph.ToolNodesReturnToAssistant | src/graph_node.py:138-139 | In any run, a tool node is always followed by the assistant. |
| Graph.InterruptNeedsSensitiveCall | src/graph_node.py:135-137 | A turn halts for confirmation only if the last message's first tool call names a sensitive tool. |
| Tools.HandleToolError | tools.py:156-167 | There is one tool message per tool call of the last message, in the same order. Each answers its call's id. Each has the content "Error: " + repr + "\n please fix your mistakes.". |
| Tools.WithFallback | tools.py:170-173 | A node that returns passes its messages through. A node that raises yields the error handler's messages instead. The result is a failure exactly when the node raised and there is no message for the handler to read. |
| Tools.Truncate | tools.py:186-187 | A representation no longer than the limit is unchanged. A longer one becomes its first max_length characters followed by " ... (truncated)". |
| Tools.PrintEventOnce | tools.py:176-189 | When a dialog state is present, the first line is "Currently in:  " followed by its last entry. The event's message (the single one, or the last of a list) is printed, truncated, only if its id was not printed before. Afterwards its id is in the printed set, and nothing else is added. |
| Tools.PrintEventDeduplicates | tools.py:184-189 | Feeding the same event twice prints its message once. The second call leaves the printed set as it was. |
| Session.InitialSession | app.py:35-62 | A new session has an empty history, no pending decision and the given thread id, and its gate is consistent. |
| Session.ConfirmationPrompt | app.py:169-177 | The dialog's prompt agrees with the table of nine tool names (ticket change, cancel, two calendar names, five gmail names). Every other name gets the default prompt. |
| Session.PromptGroupsDisjoint | app.py:169-177 | The calendar and gmail name groups are disjoint and do not contain the ticket tools, so at most one override fires. Each sensitive tool gets its own non-default prompt. |
| Session.HandleChatInput | app.py:229-275 | An empty prompt does nothing. Otherwise: (1) a raised stream leaves the session unchanged and reports that error; (2) the flag is set exactly when the snapshot has a pending next node and no streamed state was empty; (3) the stored event changes only to the last streamed state, with the flag set; (4) when the stream returns at least one state and none is empty, the turn succeeds and appends the prompt and then the last state's last content; the event becomes that last state exactly when a next node is pending, and flag and event are otherwise untouched; (5) with no streamed state, nothing is appended, and a pending next node sets the flag with an unbound-event error; (6) an empty streamed state aborts the turn with the session unchanged; (7) any error leaves the history and event as they were. |
| Session.DecisionInput | app.py:182-207 | Approval sends no input. Denial sends exactly one tool message, with the fixed denial text, answering the pending call's id. |
| Session.PendingCall | app.py:166-167 | The dialog finds its pending call exactly when the stored event's last message has a tool call. That call is the first one. |
| Session.ConfirmChange | app.py:180-219 | A successful decision clears the flag and the event, keeps the thread, and grows the history by exactly the marker ("確認要求" or "拒絕要求") and the graph result's last content. It fails exactly when there is no pending call, the graph raises, or the result has no message. |
| Session.PendingPromptIsDedicated | app.py:166-178 | While the gate is consistent and a decision is pending, the dialog finds a sensitive pending call and shows its dedicated prompt. |
| Session.ResetChatAsWritten | app.py:125-135 | The reset as written empties the history and takes a fresh thread id, but keeps the pending flag and event. |
| Session.ResetAsWrittenKeepsPendingDecision | app.py:125-135 | As written, a reset during a pending decision does not give a new session: the dialog stays armed on the new thread. |
| Session.ResetChat | app.py:125-135 | The corrected reset gives exactly a new session on the fresh thread. |
| Session.Apply | app.py:221-224 | One interaction with the page, with the program's own reset. Only a reset changes the thread, and a reset empties the history. A decision is possible only while the flag is set. It either clears the flag and the event or, when the dialog aborts, changes nothing. |
| Session.ApplyCorrected | app.py:125-135 | With the corrected reset, a reset gives exactly a new session. Every other interaction is the program's. |
| Session.CorrectionOnlyAffectsPendingReset | app.py:125-135 | The program's reset and the corrected one differ exactly on a reset while a decision or an event is pending. |
| Session.ApplyKeepsGate | app.py:221-224 | Every interaction, including the program's own reset, keeps the gate consistent. This holds under `FaithfulStream`, which says the graph reports a pending node only after streaming a state that proposes a sensitive call. Consistent means a pending flag comes with a stored event whose first call is sensitive. |
| Session.GateConsistentAlongRun | app.py:221-275 | From a consistent session, under `FaithfulStream` for every chat input, any sequence of chat inputs, decisions and the program's resets keeps the gate consistent. |
| FlightSearch.SearchFlightsQuery | app.py:402-422 | The query is the base query, then the clauses of the active filters, then " LIMIT ?". The parameters are those filters' arguments and then the limit. The query holds exactly one placeholder per parameter. |
| FlightSearch.ActiveFiltersExact | app.py:405-419 | A filter is present exactly when its argument is truthy, and it carries that argument. Filters appear in the fixed order departure, arrival, start, end. |
| FlightSearch.AddFilter | app.py:405-419 | One builder step appends the clause and parameter of a truthy argument and leaves the query alone otherwise. |
| FlightSearch.BuilderAppliesActiveFilters | app.py:402-419 | The four builder steps together append exactly the active filters. |
| FlightSearch.PlaceholderCount | app.py:402-422 | The query text holds one placeholder per filter plus one for the limit. |
| StreamData.StreamChunks | app.py:120-122 | There is one chunk per space-separated word (empty words included). Each chunk is a space-free word followed by one space. Together the chunks spell the text plus a trailing space. |
| StreamData.ChunkingUnique | app.py:120-122 | Two chunk sequences that spell the same text are equal, so the chunking above is the only one possible. |

## Left out

- Speech recognition and synthesis (`azure_asr.py`, `google_stt.py`, `google_tts.py`, `fanolab_asr_tts.py`, `src/azure_tts.py`) are left out: they are SDK and HTTP wrappers with file I/O.
- Policy retrieval (`vector_store_retriever.py`) and database setup (`sqlite_setup.py`) are left out: they are downloads, embeddings and datetime arithmetic. `src/prompt.py` is a constant string.
- Executing the SQL, the DataFrames and the sidebar tabs are left out. Only the query text and parameter list are modelled.
- All Streamlit rendering is left out: the "Thinking" placeholder, audio playback, the voice toggles, `last_message_stream_already`, `voice_mode_auto_play_already`, `st.rerun` and the cache. Their flags do not affect the gate. The model of `handle_chat_input` omits the two UI flags it sets.
- The agent object, the config and the speech clients in the session start-up are left out. They are caches of library objects.
- The language model, the tools themselves, LangGraph's checkpoint store (`MemorySaver`) and `graph.stream`, `invoke` and `get_state` are parameters. `FaithfulStream` states the one fact the gate invariant needs about them. The rendering of a message (`pretty_repr`) is a parameter too.
- LangGraph's `add_messages` reducer is modelled as plain appending. Its replacement of a message with an existing id is left out, because the core never re-sends an id.
- Denial is modelled as a new run from the graph's entry. That is how the library treats new input on a halted thread. The pending sensitive call is then never executed.
- AssistantNode.Call: the source loop has no bound. The model returns `None` after `fuel` empty attempts, and the real program would keep looping there. No retry cap is modelled, because the code has none.
- AssistantNode.Call: list-shaped content is modelled as a list of blocks that each may carry a "text" entry. LangChain also allows a plain string as a list element. When the first element is a string, the source's `content[0].get("text")` raises `AttributeError` (src/graph_node.py:39), and the exception leaves the assistant node. The model cannot express such an element, so that failure is not modelled.
- Graph.Execute: one `fuel` budget bounds both the node steps and each assistant loop, and running out is reported as `OutOfFuel`. The config (app.py:140-147) sets no recursion limit, so LangGraph's default step limit applies. Past it, `stream` and `invoke` raise a recursion error, which `handle_chat_input` catches (app.py:273-275) and `confirm_change` lets propagate. `OutOfFuel` stands in for that error without its exact bound. `Stop` also has no case for an exception raised by the language-model call or by the user-info lookup (src/graph_node.py:50-59, 104-105). In the model those are total functions.
- Tools.PrintEventOnce: `max_length` is a `nat`. Python slicing with a negative limit is not modelled.
- Tools.HandleToolError: message ids of the produced tool messages are left absent, since the library assigns them.
- Session.HandleChatInput: a streamed state with no message makes the source raise in the loop. The model reports `EmptyEvent` for this and does not set the flag. That matches the source, which raises before reading the snapshot.
- No decision is ever rejected: the dialog is simply shown only while the flag is set (app.py:221-224), and `Session.Apply` ignores a decision otherwise. No rejection path is modelled, because the code has none.
- Session.ResetChatAsWritten: only the session fields are modelled. `st.cache_resource.clear()` and the new `get_agent()` call run `download_db` again, which restores `travel2.sqlite` from its backup and shifts its dates (sqlite_setup.py:34-41). The button's label says this (app.py:341). The compiled graph and its `MemorySaver` survive the reset, because `st.session_state.agent` is already set (app.py:90-91), so the old thread's checkpoint persists. The database and the checkpoint store are not part of this model.

## Findings

| source | as written | input that shows it | evidently intended | confidence | as-written member | corrected member |
|---|---|---|---|---|---|---|
| app.py:125-135 | `reset_chat` empties the history and takes a new thread id, but never clears `is_human_in_loop` or `event`. | Any session with a pending decision (flag set, event stored), then RESET. The dialog reappears on the new, empty thread for the old thread's call. Approving it resumes a thread with no checkpoint. | A reset starts a new session: nothing pending, no event. | medium, not executed | Session.ResetChatAsWritten, Session.ResetAsWrittenKeepsPendingDecision | Session.ResetChat (used by Session.ApplyCorrected) |

=== FILE: assistant.dfy ===
/** The assistant node: it invokes the language model on the graph state and,
    while the reply is empty, re-prompts with a fixed corrective user message.
    The model is an arbitrary function of the state it is shown. */
module AssistantNode {
  import opened Wrappers
  import opened Messages

  const RepromptText := "Respond with a real output."

  /** `n` corrective user messages. */
  function Reprompts(n: nat): (ms: seq<Message>)
    ensures |ms| == n
    ensures forall i :: 0 <= i < n ==> ms[i] == HumanText(RepromptText)
  {
    if n == 0 then [] else [HumanText(RepromptText)] + Reprompts(n - 1)
  }

  /** One re-prompt step of the loop: the state with one corrective message
      appended. */
  function Reprompt(s: GraphState): GraphState
  {
    s.(messages := s.messages + [HumanText(RepromptText)])
  }

  /** The state the model sees on attempt `n` (counting from 0): the original
      messages, unchanged, followed by `n` corrective messages. */
  function WithReprompts(s: GraphState, n: nat): (t: GraphState)
    ensures t.userInfo == s.userInfo
    ensures |t.messages| == |s.messages| + n
    ensures t.messages[..|s.messages|] == s.messages
    ensures forall i :: |s.messages| <= i < |t.messages| ==> t.messages[i] == HumanText(RepromptText)
  {
    s.(messages := s.messages + Reprompts(n))
  }

  /** Re-prompting once and then `n` more times is re-prompting `n + 1` times. */
  lemma RepromptShift(s: GraphState, n: nat)
    ensures WithReprompts(Reprompt(s), n) == WithReprompts(s, n + 1)
  {
  }

  /** Each iteration extends the message list by exactly the corrective
      message and keeps the earlier messages as a prefix. */
  lemma RepromptExtendsByOne(s: GraphState)
    ensures Reprompt(s) == WithReprompts(s, 1)
    ensures |Reprompt(s).messages| == |s.messages| + 1
    ensures Reprompt(s).messages[..|s.messages|] == s.messages
    ensures Last(Reprompt(s).messages) == HumanText("Respond with a real output.")
  {
  }

  /** The reply the loop exits with, and how many corrective messages had been
      appended to the state the model answered. */
  datatype Reply = Reply(message: Message, reprompts: nat)

  /** The loop, run for at most `fuel` re-prompts. `Some` is the reply the loop
      exits with; `None` means the loop is still running after `fuel`
      re-prompts (the source loop has no bound). */
  function Call(llm: GraphState -> Message, s: GraphState, fuel: nat): (r: Option<Reply>)
    ensures r.Some? ==> Usable(r.value.message)
    ensures r.Some? ==> r.value.reprompts <= fuel
    ensures r.Some? ==> r.value.message == llm(WithReprompts(s, r.value.reprompts))
    ensures r.Some? ==> forall j :: 0 <= j < r.value.reprompts ==> !Usable(llm(WithReprompts(s, j)))
    ensures r.None? ==> forall j :: 0 <= j <= fuel ==> !Usable(llm(WithReprompts(s, j)))
    decreases fuel
  {
    assert WithReprompts(s, 0) == s;
    var result := llm(s);
    if Usable(result) then Some(Reply(result, 0))
    else if fuel == 0 then None
    else
      match Call(llm, Reprompt(s), fuel - 1)
      case None =>
        assert forall j :: 0 <= j <= fuel ==> !Usable(llm(WithReprompts(s, j))) by {
          forall j | 0 < j <= fuel
            ensures !Usable(llm(WithReprompts(s, j)))
          {
            RepromptShift(s, j - 1);
          }
        }
        None
      case Some(reply) =>
        assert forall j :: 0 <= j < reply.reprompts + 1 ==> !Usable(llm(WithReprompts(s, j))) by {
          forall j | 0 < j < reply.reprompts + 1
            ensures !Usable(llm(WithReprompts(s, j)))
          {
            RepromptShift(s, j - 1);
          }
        }
        RepromptShift(s, reply.reprompts);
        Some(Reply(reply.message, reply.reprompts + 1))
  }

  /** The loop never exits with an empty reply, and it exits as soon as the
      model answers usefully: enough fuel always yields the first usable
      attempt. */
  lemma {:induction false} CallFindsFirstUsable(llm: GraphState -> Message, s: GraphState, k: nat, fuel: nat)
    requires k <= fuel
    requires Usable(llm(WithReprompts(s, k)))
    requires forall j :: 0 <= j < k ==> !Usable(llm(WithReprompts(s, j)))
    ensures Call(llm, s, fuel) == Some(Reply(llm(WithReprompts(s, k)), k))
  {
  }
}

=== FILE: chars.dfy ===
/** Small facts about strings as sequences of characters. */
module Chars {

  /** Number of occurrences of `c` in `s`. */
  function CountChar(s: string, c: char): nat
  {
    if |s| == 0 then 0
    else CountChar(s[..|s| - 1], c) + (if s[|s| - 1] == c then 1 else 0)
  }

  /** Counting distributes over concatenation. */
  lemma {:induction false} CountCharAppend(a: string, b: string, c: char)
    ensures CountChar(a + b, c) == CountChar(a, c) + CountChar(b, c)
    decreases |b|
  {
    if |b| == 0 {
      assert a + b == a;
    } else {
      var b' := b[..|b| - 1];
      assert (a + b)[..|a + b| - 1] == a + b';
      CountCharAppend(a, b', c);
    }
  }

  /** `c` does not occur in `s` exactly when its count is zero. */
  lemma {:induction false} CountCharZero(s: string, c: char)
    ensures CountChar(s, c) == 0 <==> c !in s
    decreases |s|
  {
    if |s| > 0 {
      var s' := s[..|s| - 1];
      CountCharZero(s', c);
      assert s == s' + [s[|s| - 1]];
      assert c in s <==> c in s' || s[|s| - 1] == c;
    }
  }
}

=== FILE: flight_search.dfy ===
/** The text of the flight-search query and its parameter list. Only the
    parameterised SQL is modelled, not its execution. */
module FlightSearch {
  import opened Wrappers
  import Chars

  /** A date or datetime argument; such values are always truthy. */
  datatype Timestamp = Timestamp(iso: string)

  /** A bound query parameter. */
  datatype SqlParam = TextParam(text: string) | TimeParam(time: Timestamp) | IntParam(n: int)

  /** The search arguments; absent optional arguments are `None`. */
  datatype SearchArgs = SearchArgs(
    departureAirport: Option<string>,
    arrivalAirport: Option<string>,
    startTime: Option<Timestamp>,
    endTime: Option<Timestamp>,
    limit: int)

  datatype Query = Query(sql: string, params: seq<SqlParam>)

  const BaseQuery := "SELECT * FROM flights WHERE 1 = 1"
  const LimitClause := " LIMIT ?"

  /** The four optional filters, in the order the query adds them. */
  datatype FilterKind = DepartureFilter | ArrivalFilter | StartFilter | EndFilter

  datatype Filter = Filter(kind: FilterKind, param: SqlParam)

  function Clause(k: FilterKind): string
  {
    match k
    case DepartureFilter => " AND departure_airport = ?"
    case ArrivalFilter => " AND arrival_airport = ?"
    case StartFilter => " AND scheduled_departure >= ?"
    case EndFilter => " AND scheduled_departure <= ?"
  }

  function Rank(k: FilterKind): nat
  {
    match k
    case DepartureFilter => 0
    case ArrivalFilter => 1
    case StartFilter => 2
    case EndFilter => 3
  }

  predicate Truthy(text: Option<string>)
  {
    text.Some? && text.value != ""
  }

  /** The parameter an argument contributes, when it is truthy. */
  function ArgParam(a: SearchArgs, k: FilterKind): Option<SqlParam>
  {
    match k
    case DepartureFilter => if Truthy(a.departureAirport) then Some(TextParam(a.departureAirport.value)) else None
    case ArrivalFilter => if Truthy(a.arrivalAirport) then Some(TextParam(a.arrivalAirport.value)) else None
    case StartFilter => if a.startTime.Some? then Some(TimeParam(a.startTime.value)) else None
    case EndFilter => if a.endTime.Some? then Some(TimeParam(a.endTime.value)) else None
  }

  function FilterIfSet(a: SearchArgs, k: FilterKind): seq<Filter>
  {
    if ArgParam(a, k).Some? then [Filter(k, ArgParam(a, k).value)] else []
  }

  /** The order in which the query tests its optional arguments. */
  const FilterOrder: seq<FilterKind> := [DepartureFilter, ArrivalFilter, StartFilter, EndFilter]

  predicate RankIncreasing(kinds: seq<FilterKind>)
  {
    forall i, j :: 0 <= i < j < |kinds| ==> Rank(kinds[i]) < Rank(kinds[j])
  }

  /** The filters of the truthy arguments among `kinds`, in the order of
      `kinds`. */
  function Select(a: SearchArgs, kinds: seq<FilterKind>): seq<Filter>
    decreases |kinds|
  {
    if |kinds| == 0 then [] else FilterIfSet(a, kinds[0]) + Select(a, kinds[1..])
  }

  /** Each filter of `fs` is one of `kinds` and carries its truthy argument. */
  predicate FromArgs(a: SearchArgs, kinds: seq<FilterKind>, fs: seq<Filter>)
  {
    forall i :: 0 <= i < |fs| ==> ArgParam(a, fs[i].kind) == Some(fs[i].param) && fs[i].kind in kinds
  }

  predicate RankOrdered(fs: seq<Filter>)
  {
    forall i, j :: 0 <= i < j < |fs| ==> Rank(fs[i].kind) < Rank(fs[j].kind)
  }

  /** Every selected filter comes from a truthy argument among `kinds` and
      carries that argument. */
  lemma {:induction false} SelectSound(a: SearchArgs, kinds: seq<FilterKind>)
    ensures FromArgs(a, kinds, Select(a, kinds))
    decreases |kinds|
  {
    if |kinds| > 0 {
      SelectSound(a, kinds[1..]);
      var head: seq<Filter>, rest: seq<Filter> := FilterIfSet(a, kinds[0]), Select(a, kinds[1..]);
      var fs := head + rest;
      assert Select(a, kinds) == fs;
      assert kinds == [kinds[0]] + kinds[1..];
      forall i | 0 <= i < |fs|
        ensures ArgParam(a, fs[i].kind) == Some(fs[i].param) && fs[i].kind in kinds
      {
        if i < |head| {
          assert fs[i] == Filter(kinds[0], ArgParam(a, kinds[0]).value);
        } else {
          assert fs[i] == rest[i - |head|];
        }
      }
    }
  }

  /** Every truthy argument among `kinds` has its filter selected. */
  lemma {:induction false} SelectComplete(a: SearchArgs, kinds: seq<FilterKind>, k: FilterKind)
    requires k in kinds && ArgParam(a, k).Some?
    ensures exists i :: 0 <= i < |Select(a, kinds)| && Select(a, kinds)[i].kind == k
    decreases |kinds|
  {
    var head: seq<Filter>, rest: seq<Filter> := FilterIfSet(a, kinds[0]), Select(a, kinds[1..]);
    var fs := head + rest;
    assert Select(a, kinds) == fs;
    if k == kinds[0] {
      assert fs[0].kind == k;
    } else {
      assert kinds == [kinds[0]] + kinds[1..];
      assert k in kinds[1..];
      SelectComplete(a, kinds[1..], k);
      var i :| 0 <= i < |rest| && rest[i].kind == k;
      assert fs[|head| + i].kind == k;
    }
  }

  /** Selecting along a rank-increasing order yields rank-increasing filters. */
  lemma {:induction false} SelectOrdered(a: SearchArgs, kinds: seq<FilterKind>)
    requires RankIncreasing(kinds)
    ensures RankOrdered(Select(a, kinds))
    decreases |kinds|
  {
    if |kinds| > 0 {
      var head: seq<Filter>, rest: seq<Filter> := FilterIfSet(a, kinds[0]), Select(a, kinds[1..]);
      var fs := head + rest;
      assert Select(a, kinds) == fs;
      assert RankIncreasing(kinds[1..]);
      SelectOrdered(a, kinds[1..]);
      SelectSound(a, kinds[1..]);
      forall i, j | 0 <= i < j < |fs|
        ensures Rank(fs[i].kind) < Rank(fs[j].kind)
      {
        if i < |head| {
          assert fs[i].kind == kinds[0];
          assert fs[j] == rest[j - |head|];
          assert rest[j - |head|].kind in kinds[1..];
          var m :| 0 <= m < |kinds[1..]| && kinds[1..][m] == rest[j - |head|].kind;
          assert kinds[1 + m] == rest[j - |head|].kind;
        } else {
          assert fs[i] == rest[i - |head|];
          assert fs[j] == rest[j - |head|];
        }
      }
    }
  }

  /** Every filter kind is in the order, which is by rank. */
  lemma FilterOrderComplete()
    ensures forall k :: k in FilterOrder
    ensures RankIncreasing(FilterOrder)
  {
    forall k ensures k in FilterOrder {
      match k
      case DepartureFilter => assert FilterOrder[0] == k;
      case ArrivalFilter => assert FilterOrder[1] == k;
      case StartFilter => assert FilterOrder[2] == k;
      case EndFilter => assert FilterOrder[3] == k;
    }
  }

  /** The filters a search applies. */
  function ActiveFilters(a: SearchArgs): seq<Filter>
  {
    Select(a, FilterOrder)
  }

  /** A search applies one filter per truthy argument, each with that argument
      as its parameter, in the fixed order departure, arrival, start, end. */
  lemma ActiveFiltersExact(a: SearchArgs)
    ensures forall i :: 0 <= i < |ActiveFilters(a)| ==>
      ArgParam(a, ActiveFilters(a)[i].kind) == Some(ActiveFilters(a)[i].param)
    ensures forall k :: ArgParam(a, k).Some? <==> exists i :: 0 <= i < |ActiveFilters(a)| && ActiveFilters(a)[i].kind == k
    ensures RankOrdered(ActiveFilters(a))
  {
    FilterOrderComplete();
    SelectSound(a, FilterOrder);
    SelectOrdered(a, FilterOrder);
    forall k | ArgParam(a, k).Some?
      ensures exists i :: 0 <= i < |ActiveFilters(a)| && ActiveFilters(a)[i].kind == k
    {
      assert k in FilterOrder;
      SelectComplete(a, FilterOrder, k);
      var i :| 0 <= i < |Select(a, FilterOrder)| && Select(a, FilterOrder)[i].kind == k;
      assert ActiveFilters(a)[i].kind == k;
    }
  }

  function Clauses(fs: seq<Filter>): string
  {
    if |fs| == 0 then "" else Clause(fs[0].kind) + Clauses(fs[1..])
  }

  function Params(fs: seq<Filter>): (ps: seq<SqlParam>)
    ensures |ps| == |fs| && forall i :: 0 <= i < |fs| ==> ps[i] == fs[i].param
  {
    seq(|fs|, i requires 0 <= i < |fs| => fs[i].param)
  }

  /** The query with the clauses and parameters of `fs` appended in order. */
  function Extend(q: Query, fs: seq<Filter>): Query
  {
    Query(q.sql + Clauses(fs), q.params + Params(fs))
  }

  lemma {:induction false} ClausesAppend(a: seq<Filter>, b: seq<Filter>)
    ensures Clauses(a + b) == Clauses(a) + Clauses(b)
    decreases |a|
  {
    if |a| > 0 {
      var head := Clause(a[0].kind);
      assert (a + b)[0] == a[0];
      assert (a + b)[1..] == a[1..] + b;
      assert Clauses(a + b) == head + Clauses(a[1..] + b);
      ClausesAppend(a[1..], b);
      assert Clauses(a) == head + Clauses(a[1..]);
    } else {
      assert a + b == b;
    }
  }

  lemma ParamsAppend(a: seq<Filter>, b: seq<Filter>)
    ensures Params(a) + Params(b) == Params(a + b)
  {
  }

  lemma ExtendTwice(q: Query, a: seq<Filter>, b: seq<Filter>)
    ensures Extend(Extend(q, a), b) == Extend(q, a + b)
  {
    var ca, cb, pa, pb := Clauses(a), Clauses(b), Params(a), Params(b);
    ClausesAppend(a, b);
    ParamsAppend(a, b);
    assert (q.sql + ca) + cb == q.sql + (ca + cb);
    assert (q.params + pa) + pb == q.params + (pa + pb);
  }

  /** One step of the builder: a truthy argument appends its clause and its
      parameter; a falsy one leaves the query as it is. */
  function AddFilter(q: Query, a: SearchArgs, k: FilterKind): (r: Query)
    ensures r == Extend(q, FilterIfSet(a, k))
  {
    match ArgParam(a, k)
    case None => q
    case Some(p) =>
      assert Clauses([Filter(k, p)]) == Clause(k);
      Query(q.sql + Clause(k), q.params + [p])
  }

  lemma OnePlaceholderAtEnd(prefix: string)
    requires '?' !in prefix
    ensures Chars.CountChar(prefix + "?", '?') == 1
  {
    Chars.CountCharZero(prefix, '?');
    Chars.CountCharAppend(prefix, "?", '?');
  }

  /** Each clause holds exactly one placeholder, its last character. */
  lemma ClauseHasOnePlaceholder(k: FilterKind)
    ensures Chars.CountChar(Clause(k), '?') == 1
  {
    match k
    case DepartureFilter => assert Clause(k) == " AND departure_airport = " + "?"; OnePlaceholderAtEnd(" AND departure_airport = ");
    case ArrivalFilter => assert Clause(k) == " AND arrival_airport = " + "?"; OnePlaceholderAtEnd(" AND arrival_airport = ");
    case StartFilter => assert Clause(k) == " AND scheduled_departure >= " + "?"; OnePlaceholderAtEnd(" AND scheduled_departure >= ");
    case EndFilter => assert Clause(k) == " AND scheduled_departure <= " + "?"; OnePlaceholderAtEnd(" AND scheduled_departure <= ");
  }

  lemma {:induction false} ClausesPlaceholders(fs: seq<Filter>)
    ensures Chars.CountChar(Clauses(fs), '?') == |fs|
    decreases |fs|
  {
    if |fs| > 0 {
      ClauseHasOnePlaceholder(fs[0].kind);
      ClausesPlaceholders(fs[1..]);
      Chars.CountCharAppend(Clause(fs[0].kind), Clauses(fs[1..]), '?');
    }
  }

  /** The query builder: starting from the base query, each truthy argument
      appends its clause and its parameter, in the order departure, arrival,
      start, end; then the limit clause and the limit are appended. The query
      is the base, the active filters' clauses and the limit clause; the
      parameters are the active filters' parameters and then the limit; there
      is one placeholder per parameter. */
  function SearchFlightsQuery(a: SearchArgs): (q: Query)
    ensures q.sql == BaseQuery + Clauses(ActiveFilters(a)) + LimitClause
    ensures q.params == Params(ActiveFilters(a)) + [IntParam(a.limit)]
    ensures Chars.CountChar(q.sql, '?') == |q.params|
  {
    var q0 := Query(BaseQuery, []);
    var q1 := AddFilter(q0, a, DepartureFilter);
    var q2 := AddFilter(q1, a, ArrivalFilter);
    var q3 := AddFilter(q2, a, StartFilter);
    var q4 := AddFilter(q3, a, EndFilter);
    var fs := ActiveFilters(a);
    BuilderAppliesActiveFilters(a);
    assert q4 == Extend(q0, fs);
    assert q4.params == Params(fs);
    PlaceholderCount(fs);
    Query(q4.sql + LimitClause, q4.params + [IntParam(a.limit)])
  }

  /** The active filters are the four optional filters in the fixed order. */
  lemma ActiveFiltersUnfold(a: SearchArgs)
    ensures ActiveFilters(a) == FilterIfSet(a, DepartureFilter) + FilterIfSet(a, ArrivalFilter) +
                                FilterIfSet(a, StartFilter) + FilterIfSet(a, EndFilter)
  {
  }

  /** The four builder steps together append the active filters. */
  lemma BuilderAppliesActiveFilters(a: SearchArgs)
    ensures
      var q0 := Query(BaseQuery, []);
      AddFilter(AddFilter(AddFilter(AddFilter(q0, a, DepartureFilter), a, ArrivalFilter), a, StartFilter), a, EndFilter)
        == Extend(q0, ActiveFilters(a))
  {
    var q0 := Query(BaseQuery, []);
    var f1, f2, f3, f4 := FilterIfSet(a, DepartureFilter), FilterIfSet(a, ArrivalFilter),
                          FilterIfSet(a, StartFilter), FilterIfSet(a, EndFilter);
    ExtendTwice(q0, f1, f2);
    ExtendTwice(q0, f1 + f2, f3);
    ExtendTwice(q0, f1 + f2 + f3, f4);
    ActiveFiltersUnfold(a);
  }

  lemma BaseQueryHasNoPlaceholder()
    ensures Chars.CountChar(BaseQuery, '?') == 0
  {
    Chars.CountCharZero(BaseQuery, '?');
  }

  lemma LimitClauseHasOnePlaceholder()
    ensures Chars.CountChar(LimitClause, '?') == 1
  {
    assert LimitClause == " LIMIT " + "?";
    Chars.CountCharZero(" LIMIT ", '?');
    Chars.CountCharAppend(" LIMIT ", "?", '?');
  }

  /** The query text of a filter list holds one placeholder per filter plus
      the limit's. */
  lemma PlaceholderCount(fs: seq<Filter>)
    ensures Chars.CountChar(BaseQuery + Clauses(fs) + LimitClause, '?') == |fs| + 1
  {
    ClausesPlaceholders(fs);
    BaseQueryHasNoPlaceholder();
    LimitClauseHasOnePlaceholder();
    Chars.CountCharAppend(BaseQuery, Clauses(fs), '?');
    Chars.CountCharAppend(BaseQuery + Clauses(fs), LimitClause, '?');
  }
}

=== FILE: graph.dfy ===
/** The agent graph: the tool catalogue split into safe and sensitive tools,
    the routing policy after each assistant step, the node wiring, and an
    executor for the compiled graph, which halts before the sensitive-tool
    node so that a human can decide. */
module Graph {
  import opened Wrappers
  import opened Messages
  import Tools
  import AssistantNode

  /** Read-only tools, which run without confirmation. */
  const SafeToolNames: seq<string> :=
    ["fetch_user_flight_information", "get_airport_code", "search_flights", "lookup_policy"]

  /** Tools that change the user's reservations. */
  const SensitiveTools: seq<string> := ["update_ticket_to_new_flight", "cancel_ticket"]

  /** The names the routing policy treats as sensitive. */
  const SensitiveToolNames: set<string> := set n | n in SensitiveTools

  /** The sensitive names are exactly the two ticket-changing tools, and no safe
      tool is among them. */
  lemma SensitiveNamesExact()
    ensures SensitiveToolNames == {"update_ticket_to_new_flight", "cancel_ticket"}
    ensures forall i :: 0 <= i < |SafeToolNames| ==> SafeToolNames[i] !in SensitiveToolNames
  {
  }

  /** Where control goes after an assistant step. */
  datatype Route = ToEnd | ToSafeTools | ToSensitiveTools

  /** The state holds no message to inspect (the library condition raises). */
  datatype RouteError = NoMessages

  /** The routing policy: no tool call ends the turn; otherwise the first tool
      call's name alone decides between the safe and the sensitive node. */
  function RouteTools(messages: seq<Message>): (r: Result<Route, RouteError>)
    ensures r.Failure? <==> |messages| == 0
    ensures r == Success(ToEnd) <==> |messages| > 0 && |Last(messages).toolCalls| == 0
    ensures r == Success(ToSensitiveTools) <==>
      |messages| > 0 && |Last(messages).toolCalls| > 0 && Last(messages).toolCalls[0].name in SensitiveToolNames
    ensures r == Success(ToSafeTools) <==>
      |messages| > 0 && |Last(messages).toolCalls| > 0 && Last(messages).toolCalls[0].name !in SensitiveToolNames
  {
    if |messages| == 0 then Failure(NoMessages)
    else if |Last(messages).toolCalls| == 0 then Success(ToEnd)
    else
      var firstToolCall := Last(messages).toolCalls[0];
      if firstToolCall.name in SensitiveToolNames then Success(ToSensitiveTools)
      else Success(ToSafeTools)
  }

  /** Only the first tool call is inspected: two message lists whose last
      messages agree on whether there are tool calls and on the first call's
      name are routed alike, whatever the other calls are. */
  lemma RouteReadsOnlyFirstCall(a: seq<Message>, b: seq<Message>)
    requires |a| > 0 && |b| > 0
    requires |Last(a).toolCalls| == 0 <==> |Last(b).toolCalls| == 0
    requires |Last(a).toolCalls| > 0 ==> Last(a).toolCalls[0].name == Last(b).toolCalls[0].name
    ensures RouteTools(a) == RouteTools(b)
  {
  }

  /** A proposed call of a safe tool never reaches the confirmation gate. */
  lemma SafeToolIsNeverConfirmed(messages: seq<Message>)
    requires |messages| > 0 && |Last(messages).toolCalls| > 0
    requires Last(messages).toolCalls[0].name in SafeToolNames
    ensures RouteTools(messages) == Success(ToSafeTools)
  {
  }

  /** The graph's nodes; `Start` is the library's entry point and `End` its
      exit. */
  datatype Node = Start | FetchUserInfo | Assistant | SafeTools | SensitiveToolsNode | End

  /** The graph's edges: entry to fetch_user_info, then the assistant; the
      assistant branches on the route; both tool nodes return to the
      assistant. */
  predicate IsEdge(a: Node, b: Node)
  {
    match a
    case Start => b == FetchUserInfo
    case FetchUserInfo => b == Assistant
    case Assistant => b == SafeTools || b == SensitiveToolsNode || b == End
    case SafeTools => b == Assistant
    case SensitiveToolsNode => b == Assistant
    case End => false
  }

  function RouteTarget(r: Route): Node
  {
    match r
    case ToEnd => End
    case ToSafeTools => SafeTools
    case ToSensitiveTools => SensitiveToolsNode
  }

  /** The collaborators the graph calls: the user-info lookup's result, the
      language model, and the two tool nodes (each given the state's messages). */
  datatype Oracles = Oracles(
    userInfo: string,
    llm: GraphState -> Message,
    safeTools: seq<Message> -> Tools.ToolOutcome,
    sensitiveTools: seq<Message> -> Tools.ToolOutcome)

  /** Why a node could not complete: the assistant was still re-prompting when
      the fuel ran out, or a tool node's error handler itself failed. */
  datatype StepFailure = Stalled | ToolNodeFailed

  /** Executes one node: its state update and the node that comes next. The
      assistant's re-prompts are local to its loop: only its final reply is
      added to the state. */
  function Step(node: Node, s: GraphState, o: Oracles, fuel: nat): (r: Result<(GraphState, Node), StepFailure>)
    requires node != End
    ensures r.Success? ==> IsEdge(node, r.value.1)
    ensures r.Success? ==> s.messages <= r.value.0.messages
    ensures r.Failure? ==> (r.error == Stalled <==> node == Assistant)
    ensures r.Failure? ==> node == Assistant || node == SafeTools || node == SensitiveToolsNode
    ensures r.Success? && r.value.1 == SensitiveToolsNode ==>
      RouteTools(r.value.0.messages) == Success(ToSensitiveTools)
    ensures r.Success? && r.value.1 == End ==>
      RouteTools(r.value.0.messages) == Success(ToEnd) && HasText(Last(r.value.0.messages).content)
    ensures node == Assistant ==>
      (r.Success? <==> AssistantNode.Call(o.llm, s, fuel).Some?)
    ensures node == Assistant && r.Success? ==>
      r.value.0 == s.(messages := s.messages + [AssistantNode.Call(o.llm, s, fuel).value.message]) &&
      RouteTools(r.value.0.messages).Success? &&
      r.value.1 == RouteTarget(RouteTools(r.value.0.messages).value)
    ensures node == SafeTools ==>
      var out := Tools.WithFallback(o.safeTools(s.messages), s.messages);
      (r.Failure? <==> out.Failure?) &&
      (r.Success? ==> r.value.0 == s.(messages := s.messages + out.value))
    ensures node == SensitiveToolsNode ==>
      var out := Tools.WithFallback(o.sensitiveTools(s.messages), s.messages);
      (r.Failure? <==> out.Failure?) &&
      (r.Success? ==> r.value.0 == s.(messages := s.messages + out.value))
  {
    match node
    case Start => Success((s, FetchUserInfo))
    case FetchUserInfo => Success((s.(userInfo := o.userInfo), Assistant))
    case Assistant =>
      (match AssistantNode.Call(o.llm, s, fuel)
       case None => Failure(Stalled)
       case Some(reply) =>
         var s' := s.(messages := s.messages + [reply.message]);
         var route := RouteTools(s'.messages);
         Success((s', RouteTarget(route.value))))
    case SafeTools => ToolStep(s, o.safeTools(s.messages))
    case SensitiveToolsNode => ToolStep(s, o.sensitiveTools(s.messages))
  }

  /** A tool node with its fallback: its messages are appended and control
      returns to the assistant. */
  function ToolStep(s: GraphState, outcome: Tools.ToolOutcome): (r: Result<(GraphState, Node), StepFailure>)
    ensures r.Success? ==> r.value.1 == Assistant && s.messages <= r.value.0.messages
    ensures r.Failure? ==> r.error == ToolNodeFailed
    ensures r.Failure? <==> Tools.WithFallback(outcome, s.messages).Failure?
    ensures r.Success? ==>
      r.value.0 == s.(messages := s.messages + Tools.WithFallback(outcome, s.messages).value)
  {
    match Tools.WithFallback(outcome, s.messages)
    case Failure(_) => Failure(ToolNodeFailed)
    case Success(replies) => Success((s.(messages := s.messages + replies), Assistant))
  }

  /** How a run stopped: the turn reached the end, the graph halted before the
      sensitive-tool node, the fuel ran out, or a node failed. */
  datatype Stop = Finished | Interrupted | OutOfFuel | Crashed

  /** A run's stop reason, final state and the nodes executed, in order. */
  datatype Run = Run(stop: Stop, state: GraphState, trace: seq<Node>)

  /** The executed nodes form a path of the graph starting at `node`. */
  predicate IsPathFrom(node: Node, trace: seq<Node>)
  {
    (|trace| > 0 ==> trace[0] == node) &&
    forall i :: 0 < i < |trace| ==> IsEdge(trace[i - 1], trace[i])
  }

  /** Runs the compiled graph from `node` for at most `fuel` node executions.
      Before the sensitive-tool node the graph halts, unless this run is the
      resumption of exactly that halt (`resumed`). */
  function Execute(node: Node, s: GraphState, o: Oracles, fuel: nat, resumed: bool): (r: Run)
    ensures IsPathFrom(node, r.trace)
    ensures s.messages <= r.state.messages
    ensures forall i :: 0 < i < |r.trace| ==> r.trace[i] != SensitiveToolsNode
    ensures !resumed ==> SensitiveToolsNode !in r.trace
    ensures r.stop == Interrupted && node != SensitiveToolsNode ==>
      RouteTools(r.state.messages) == Success(ToSensitiveTools)
    ensures r.stop == Finished && node != End ==>
      RouteTools(r.state.messages) == Success(ToEnd) && HasText(Last(r.state.messages).content)
    ensures r.stop == OutOfFuel ==> |r.trace| == fuel || (|r.trace| > 0 && Last(r.trace) == Assistant)
    ensures r.stop == Finished && node != End ==> |r.trace| > 0 && Last(r.trace) == Assistant
    ensures r.stop == Interrupted && node != SensitiveToolsNode ==> |r.trace| > 0 && Last(r.trace) == Assistant
    ensures r.stop == Crashed ==>
      |r.trace| > 0 && (Last(r.trace) == SafeTools || Last(r.trace) == SensitiveToolsNode)
    ensures r.stop == Crashed && Last(r.trace) == SafeTools ==>
      Tools.WithFallback(o.safeTools(r.state.messages), r.state.messages).Failure?
    ensures r.stop == Crashed && Last(r.trace) == SensitiveToolsNode ==>
      Tools.WithFallback(o.sensitiveTools(r.state.messages), r.state.messages).Failure?
    ensures |r.trace| > 0 && Last(r.trace) == Assistant && (r.stop == Finished || r.stop == Interrupted) ==>
      (r.stop == Interrupted <==> RouteTools(r.state.messages) == Success(ToSensitiveTools))
    decreases fuel
  {
    if node == End then Run(Finished, s, [])
    else if node == SensitiveToolsNode && !resumed then Run(Interrupted, s, [])
    else if fuel == 0 then Run(OutOfFuel, s, [])
    else
      match Step(node, s, o, fuel)
      case Failure(f) => Run(if f == Stalled then OutOfFuel else Crashed, s, [node])
      case Success((s', next)) =>
        var rest := Execute(next, s', o, fuel - 1, false);
        Run(rest.stop, rest.state, [node] + rest.trace)
  }

  /** A new turn: the input messages are added and the graph runs from its
      entry. A denial is such a turn, so the pending sensitive call is never
      executed by it. */
  function Invoke(s: GraphState, input: seq<Message>, o: Oracles, fuel: nat): (r: Run)
    ensures (s.messages + input) <= r.state.messages
    ensures SensitiveToolsNode !in r.trace
    ensures fuel > 0 ==> |r.trace| > 0 && r.trace[0] == Start
  {
    Execute(Start, s.(messages := s.messages + input), o, fuel, false)
  }

  /** Resumption after approval: the pending sensitive-tool node runs first,
      on the state as it was when the graph halted, and at most once. */
  function Resume(s: GraphState, o: Oracles, fuel: nat): (r: Run)
    ensures s.messages <= r.state.messages
    ensures fuel > 0 ==> |r.trace| > 0 && r.trace[0] == SensitiveToolsNode
    ensures forall i :: 0 < i < |r.trace| ==> r.trace[i] != SensitiveToolsNode
  {
    Execute(SensitiveToolsNode, s, o, fuel, true)
  }

  /** The gate always closes on a sensitive call: when an assistant step's
      reply routes to the sensitive tools, the run halts right after that
      step, with the reply as the last message, and no tool has run. */
  lemma SensitiveRouteHalts(s: GraphState, o: Oracles, fuel: nat)
    requires fuel > 0
    ensures var st := Step(Assistant, s, o, fuel);
      st.Success? && RouteTools(st.value.0.messages) == Success(ToSensitiveTools) ==>
        Execute(Assistant, s, o, fuel, false) == Run(Interrupted, st.value.0, [Assistant])
  {
  }

  /** A turn whose first assistant reply proposes a sensitive call halts
      before any tool runs, on the input followed by that reply. */
  lemma SensitiveFirstReplyHaltsTurn(s: GraphState, input: seq<Message>, o: Oracles, fuel: nat)
    requires fuel >= 3
    ensures var s1 := s.(messages := s.messages + input, userInfo := o.userInfo);
      var reply := AssistantNode.Call(o.llm, s1, fuel - 2);
      reply.Some? && |reply.value.message.toolCalls| > 0 &&
      reply.value.message.toolCalls[0].name in SensitiveToolNames ==>
        Invoke(s, input, o, fuel) ==
          Run(Interrupted, s1.(messages := s1.messages + [reply.value.message]), [Start, FetchUserInfo, Assistant])
  {
    var s0 := s.(messages := s.messages + input);
    var s1 := s0.(userInfo := o.userInfo);
    assert Step(Start, s0, o, fuel) == Success((s0, FetchUserInfo));
    assert Step(FetchUserInfo, s0, o, fuel - 1) == Success((s1, Assistant));
    var reply := AssistantNode.Call(o.llm, s1, fuel - 2);
    if reply.Some? && |reply.value.message.toolCalls| > 0 &&
       reply.value.message.toolCalls[0].name in SensitiveToolNames {
      var s2 := s1.(messages := s1.messages + [reply.value.message]);
      assert RouteTools(s2.messages) == Success(ToSensitiveTools);
      SensitiveRouteHalts(s1, o, fuel - 2);
      var third := Execute(Assistant, s1, o, fuel - 2, false);
      assert third == Run(Interrupted, s2, [Assistant]);
      var second := Execute(FetchUserInfo, s0, o, fuel - 1, false);
      assert second == Run(Interrupted, s2, [FetchUserInfo] + third.trace);
      assert Invoke(s, input, o, fuel) == Run(Interrupted, s2, [Start] + second.trace);
    }
  }

  /** Approval injects nothing: the sensitive tool node runs first, on exactly
      the messages the graph halted with, and its replies (or the error
      handler's) directly follow them. */
  lemma ApprovalRunsPendingCallFirst(s: GraphState, o: Oracles, fuel: nat)
    requires fuel > 0
    ensures var r := Resume(s, o, fuel);
      |r.trace| > 0 && r.trace[0] == SensitiveToolsNode &&
      match Tools.WithFallback(o.sensitiveTools(s.messages), s.messages)
      case Success(replies) => s.messages + replies <= r.state.messages
      case Failure(_) => r.stop == Crashed && r.state == s
  {
  }

  /** Only the sensitive-tool node consults the sensitive executor. */
  lemma StepIgnoresSensitiveTools(node: Node, s: GraphState, o: Oracles, fuel: nat,
                                  f: seq<Message> -> Tools.ToolOutcome)
    requires node != End && node != SensitiveToolsNode
    ensures Step(node, s, o, fuel) == Step(node, s, o.(sensitiveTools := f), fuel)
  {
  }

  /** A run that is not a resumption never consults the sensitive executor:
      whatever the ticket-changing tools would do, the run is the same. */
  lemma {:induction false} ExecuteIgnoresSensitiveTools(node: Node, s: GraphState, o: Oracles, fuel: nat,
                                                        f: seq<Message> -> Tools.ToolOutcome)
    ensures Execute(node, s, o, fuel, false) == Execute(node, s, o.(sensitiveTools := f), fuel, false)
    decreases fuel
  {
    if node != End && node != SensitiveToolsNode && fuel > 0 {
      StepIgnoresSensitiveTools(node, s, o, fuel, f);
      match Step(node, s, o, fuel)
      case Failure(_) =>
      case Success((s', next)) =>
        ExecuteIgnoresSensitiveTools(next, s', o, fuel - 1, f);
    }
  }

  /** A new turn, and so a denial, runs no ticket-changing tool: its outcome
      does not depend on the sensitive executor at all. */
  lemma InvokeIgnoresSensitiveTools(s: GraphState, input: seq<Message>, o: Oracles, fuel: nat,
                                    f: seq<Message> -> Tools.ToolOutcome)
    ensures Invoke(s, input, o, fuel) == Invoke(s, input, o.(sensitiveTools := f), fuel)
  {
    ExecuteIgnoresSensitiveTools(Start, s.(messages := s.messages + input), o, fuel, f);
  }

  /** An approval consults the sensitive executor once, on the halted
      messages: any executor that agrees there gives the same run. */
  lemma ResumeConsultsSensitiveToolsOnce(s: GraphState, o: Oracles, fuel: nat,
                                         f: seq<Message> -> Tools.ToolOutcome)
    requires f(s.messages) == o.sensitiveTools(s.messages)
    ensures Resume(s, o, fuel) == Resume(s, o.(sensitiveTools := f), fuel)
  {
    if fuel > 0 {
      var o' := o.(sensitiveTools := f);
      assert Step(SensitiveToolsNode, s, o, fuel) == Step(SensitiveToolsNode, s, o', fuel);
      match Step(SensitiveToolsNode, s, o, fuel)
      case Failure(_) =>
      case Success((s', next)) =>
        ExecuteIgnoresSensitiveTools(next, s', o, fuel - 1, f);
    }
  }

  /** fetch_user_info always runs before the first assistant step. */
  lemma FetchUserInfoFirst(trace: seq<Node>)
    requires IsPathFrom(Start, trace)
    ensures forall i :: 0 <= i < |trace| && trace[i] == Assistant ==> i >= 2 && trace[1] == FetchUserInfo
  {
  }

  /** Both tool nodes hand control back to the assistant. */
  lemma ToolNodesReturnToAssistant(node: Node, trace: seq<Node>)
    requires IsPathFrom(node, trace)
    ensures forall i :: 0 <= i < |trace| - 1 && (trace[i] == SafeTools || trace[i] == SensitiveToolsNode) ==>
      trace[i + 1] == Assistant
  {
  }

  /** A turn in which the model only ever proposes safe tools is never
      suspended for confirmation. */
  lemma InterruptNeedsSensitiveCall(s: GraphState, input: seq<Message>, o: Oracles, fuel: nat)
    ensures var r := Invoke(s, input, o, fuel);
      r.stop == Interrupted ==>
        |r.state.messages| > 0 && |Last(r.state.messages).toolCalls| > 0 &&
        Last(r.state.messages).toolCalls[0].name in SensitiveToolNames
  {
  }
}

=== FILE: messages.dfy ===
/** The chat-message model shared by the agent graph, its tool nodes and the
    chat session: LangChain messages reduced to the fields the core reads. */
module Messages {
  import opened Wrappers

  datatype Role = Human | Ai | ToolRole

  /** A tool invocation proposed by the model: tool name, arguments, call id. */
  datatype ToolCall = ToolCall(name: string, args: seq<(string, string)>, id: string)

  /** One element of list-shaped message content; `text` is the block's
      optional "text" entry. */
  datatype Block = Block(text: Option<string>)

  /** Message content is either a plain string or a list of content blocks. */
  datatype Content = Text(text: string) | Blocks(blocks: seq<Block>)

  /** A message. Only AI messages carry tool calls; only tool messages carry
      the id of the call they answer. `id` is the message id the printer keys
      on; the model never assigns one. */
  datatype Message = Message(
    role: Role,
    content: Content,
    toolCalls: seq<ToolCall>,
    toolCallId: Option<string>,
    id: Option<string>)

  /** The agent graph's state: the message list and the user-info fact sheet. */
  datatype GraphState = GraphState(messages: seq<Message>, userInfo: string)

  function Last<T>(s: seq<T>): T
    requires |s| > 0
  {
    s[|s| - 1]
  }

  /** A user turn with plain text, as the tuple ("user", text) becomes. */
  function HumanText(t: string): Message
  {
    Message(Human, Text(t), [], None, None)
  }

  /** A tool-result message with plain text, bound to the call `callId`. */
  function ToolReply(callId: string, t: string): Message
  {
    Message(ToolRole, Text(t), [], Some(callId), None)
  }

  /** Content counts as usable text: a non-empty string, or a non-empty block
      list whose first block has a non-empty "text" entry. */
  predicate HasText(c: Content)
  {
    match c
    case Text(t) => t != ""
    case Blocks(bs) => |bs| > 0 && bs[0].text.Some? && bs[0].text.value != ""
  }

  /** A model reply is usable when it proposes a tool call or has usable text. */
  predicate Usable(m: Message)
  {
    |m.toolCalls| > 0 || HasText(m.content)
  }

  /** `m` is a tool-result message answering `call`. */
  predicate Answers(m: Message, call: ToolCall)
  {
    m.role == ToolRole && m.toolCallId == Some(call.id)
  }
}

=== FILE: session.dfy ===
/** The chat session of the web front end and its human-approval gate. The
    session keeps the rendered chat history, a flag saying that a decision is
    pending, the pending graph event, and the id of the graph thread. The
    graph's stream and invoke calls are arbitrary functions of the thread id
    and the input they are given. */
module Session {
  import opened Wrappers
  import opened Messages
  import Graph

  datatype ChatRole = UserRole | AssistantRole

  /** One rendered chat entry: a role and the message content. */
  datatype ChatEntry = ChatEntry(role: ChatRole, content: Content)

  datatype Session = Session(
    messages: seq<ChatEntry>,
    isHumanInLoop: bool,
    event: Option<GraphState>,
    threadId: string)

  /** The gate is consistent: whenever a decision is pending, the stored event
      exists and its last message proposes a sensitive tool call. */
  predicate GateWellFormed(s: Session)
  {
    s.isHumanInLoop ==>
      s.event.Some? && Graph.RouteTools(s.event.value.messages) == Success(Graph.ToSensitiveTools)
  }

  /** A new browser session: no history, nothing pending, a fresh thread id. */
  function InitialSession(threadId: string): (s: Session)
    ensures GateWellFormed(s) && !s.isHumanInLoop
    ensures |s.messages| == 0 && s.threadId == threadId
  {
    Session([], false, None, threadId)
  }

  // ---------------------------------------------------------------- prompts

  const DefaultPrompt := "是否確認進行更改?"
  const TicketChangePrompt := "是否確認進行更改機票?"
  const CancelPrompt := "是否確認取消機票?"
  const SchedulePrompt := "是否確認進行更改日程?"
  const EmailPrompt := "是否確認進行發送電郵?"

  const CalendarToolNames: set<string> := {"create_calendar_event", "update_calendar_event"}
  const GmailToolNames: set<string> :=
    {"create_gmail_draft", "send_gmail_message", "search_gmail", "get_gmail_message", "get_gmail_thread"}

  /** The confirmation prompts as a table keyed by tool name. */
  const PromptTable: map<string, string> := map[
    "update_ticket_to_new_flight" := TicketChangePrompt,
    "cancel_ticket" := CancelPrompt,
    "create_calendar_event" := SchedulePrompt,
    "update_calendar_event" := SchedulePrompt,
    "create_gmail_draft" := EmailPrompt,
    "send_gmail_message" := EmailPrompt,
    "search_gmail" := EmailPrompt,
    "get_gmail_message" := EmailPrompt,
    "get_gmail_thread" := EmailPrompt]

  /** The prompt shown in the confirmation dialog: the default, overridden in
      turn by each tool-name test that matches. */
  function ConfirmationPrompt(toolName: string): (p: string)
    ensures toolName in PromptTable ==> p == PromptTable[toolName]
    ensures toolName !in PromptTable ==> p == DefaultPrompt
  {
    var p0 := DefaultPrompt;
    var p1 := if toolName == "update_ticket_to_new_flight" then TicketChangePrompt else p0;
    var p2 := if toolName == "cancel_ticket" then CancelPrompt else p1;
    var p3 := if toolName in CalendarToolNames then SchedulePrompt else p2;
    if toolName in GmailToolNames then EmailPrompt else p3
  }

  /** The name groups the dialog tests are pairwise disjoint, so at most one
      override fires; and each sensitive tool gets its own, non-default
      prompt. */
  lemma PromptGroupsDisjoint()
    ensures CalendarToolNames !! GmailToolNames
    ensures "update_ticket_to_new_flight" !in CalendarToolNames + GmailToolNames
    ensures "cancel_ticket" !in CalendarToolNames + GmailToolNames
    ensures ConfirmationPrompt("update_ticket_to_new_flight") == TicketChangePrompt
    ensures ConfirmationPrompt("cancel_ticket") == CancelPrompt
    ensures forall n :: n in Graph.SensitiveToolNames ==> ConfirmationPrompt(n) != DefaultPrompt
  {
  }

  // ------------------------------------------------------------- chat input

  /** What the graph's stream call produced: the streamed state values and the
      snapshot's pending next nodes, or the exception it raised. */
  datatype StreamOutcome = Streamed(events: seq<GraphState>, next: seq<string>) | StreamRaised(error: string)

  /** Why a chat turn was abandoned with an error banner: the graph raised, a
      streamed state had no message, or a halt was reported with no event. */
  datatype ChatError = GraphRaised(message: string) | EmptyEvent | EventUnbound

  datatype ChatStep = ChatStep(session: Session, error: Option<ChatError>)

  /** The graph input for a chat prompt: the single user message. */
  function PromptInput(prompt: string): seq<Message>
  {
    [HumanText(prompt)]
  }

  /** One chat turn. An empty prompt does nothing. Otherwise the prompt is
      streamed through the graph of the session's thread; a pending next node
      sets the flag and stores the last event; the prompt and the last
      message's content are appended. Any exception is shown and nothing is
      appended. */
  function HandleChatInput(s: Session, prompt: string,
                           stream: (string, seq<Message>) -> StreamOutcome): (r: ChatStep)
    ensures prompt == "" ==> r == ChatStep(s, None)
    ensures r.session.threadId == s.threadId
    ensures r.error.Some? ==> r.session.messages == s.messages && r.session.event == s.event
    ensures prompt != "" && stream(s.threadId, PromptInput(prompt)).StreamRaised? ==>
      r.session == s && r.error == Some(GraphRaised(stream(s.threadId, PromptInput(prompt)).error))
    ensures prompt != "" && r.error.None? && r.session != s ==>
      var events := stream(s.threadId, PromptInput(prompt)).events;
      |events| > 0 && |Last(events).messages| > 0 &&
      r.session.messages == s.messages +
        [ChatEntry(UserRole, Text(prompt)), ChatEntry(AssistantRole, Last(Last(events).messages).content)]
    ensures r.session.isHumanInLoop <==>
      s.isHumanInLoop ||
      (prompt != "" && stream(s.threadId, PromptInput(prompt)).Streamed? &&
       |stream(s.threadId, PromptInput(prompt)).next| > 0 && r.error != Some(EmptyEvent))
    ensures r.session.event != s.event ==>
      r.session.isHumanInLoop && r.session.event == Some(Last(stream(s.threadId, PromptInput(prompt)).events))
    ensures var o := stream(s.threadId, PromptInput(prompt));
      prompt != "" && o.Streamed? && |o.events| > 0 &&
      (forall i :: 0 <= i < |o.events| ==> |o.events[i].messages| > 0) ==>
        r.error == None &&
        r.session.messages == s.messages +
          [ChatEntry(UserRole, Text(prompt)), ChatEntry(AssistantRole, Last(Last(o.events).messages).content)] &&
        (|o.next| > 0 ==> r.session.isHumanInLoop && r.session.event == Some(Last(o.events))) &&
        (|o.next| == 0 ==> r.session.isHumanInLoop == s.isHumanInLoop && r.session.event == s.event)
    ensures var o := stream(s.threadId, PromptInput(prompt));
      prompt != "" && o.Streamed? && |o.events| == 0 ==>
        r == (if |o.next| > 0 then ChatStep(s.(isHumanInLoop := true), Some(EventUnbound)) else ChatStep(s, None))
    ensures var o := stream(s.threadId, PromptInput(prompt));
      prompt != "" && o.Streamed? && (exists i :: 0 <= i < |o.events| && |o.events[i].messages| == 0) ==>
        r == ChatStep(s, Some(EmptyEvent))
  {
    if prompt == "" then ChatStep(s, None)
    else
      match stream(s.threadId, PromptInput(prompt))
      case StreamRaised(e) => ChatStep(s, Some(GraphRaised(e)))
      case Streamed(events, next) =>
        if exists i :: 0 <= i < |events| && |events[i].messages| == 0 then ChatStep(s, Some(EmptyEvent))
        else if |next| > 0 && |events| == 0 then
          // The flag is set before the (unbound) event is read.
          ChatStep(s.(isHumanInLoop := true), Some(EventUnbound))
        else
          var s1 := if |next| > 0 then s.(isHumanInLoop := true, event := Some(Last(events))) else s;
          if |events| == 0 then ChatStep(s1, None)
          else
            var reply := ChatEntry(AssistantRole, Last(Last(events).messages).content);
            ChatStep(s1.(messages := s1.messages + [ChatEntry(UserRole, Text(prompt)), reply]), None)
  }

  // --------------------------------------------------------------- decision

  datatype Decision = Approve | Deny

  const DenialText := "API call denied by user. Continue assisting, accounting for the user's input."

  /** The user marker recorded in the history for a decision. */
  function DecisionMarker(d: Decision): string
  {
    match d
    case Approve => "確認要求"
    case Deny => "拒絕要求"
  }

  /** What the decision sends to the graph: nothing (the halted run resumes),
      or a single new message. */
  datatype GraphInput = ResumeWithNone | NewMessages(messages: seq<Message>)

  /** The graph input of a decision on the pending call: approval injects no
      message; denial injects exactly one tool message, with the fixed denial
      text, answering the pending call. */
  function DecisionInput(d: Decision, call: ToolCall): (input: GraphInput)
    ensures d == Approve <==> input == ResumeWithNone
    ensures d == Deny ==>
      input.NewMessages? && |input.messages| == 1 &&
      Answers(input.messages[0], call) && input.messages[0].content == Text(DenialText)
  {
    match d
    case Approve => ResumeWithNone
    case Deny => NewMessages([ToolReply(call.id, DenialText)])
  }

  /** What the graph's invoke call produced: its final state, or the exception
      it raised. */
  datatype InvokeOutcome = Invoked(result: GraphState) | InvokeRaised(error: string)

  /** Why the dialog aborted (an uncaught exception): no stored event, no tool
      call in it, the graph raised, or the result had no message. */
  datatype GateFailure = NoPendingEvent | NoPendingCall | InvokeFailed(message: string) | EmptyResult

  /** The pending tool call the dialog is about: the first call of the stored
      event's last message. */
  function PendingCall(s: Session): (r: Result<ToolCall, GateFailure>)
    ensures r.Success? <==>
      s.event.Some? && |s.event.value.messages| > 0 && |Last(s.event.value.messages).toolCalls| > 0
    ensures r.Success? ==> r.value == Last(s.event.value.messages).toolCalls[0]
  {
    match s.event
    case None => Failure(NoPendingEvent)
    case Some(ev) =>
      if |ev.messages| == 0 || |Last(ev.messages).toolCalls| == 0 then Failure(NoPendingCall)
      else Success(Last(ev.messages).toolCalls[0])
  }

  /** The confirmation dialog's decision. The dialog is shown only while a
      decision is pending. On success the flag and the event are cleared and
      the history grows by the decision marker and the content of the graph
      result's last message; a failure aborts with the session unchanged. */
  function ConfirmChange(s: Session, d: Decision,
                         invoke: (string, GraphInput) -> InvokeOutcome): (r: Result<Session, GateFailure>)
    requires s.isHumanInLoop
    ensures r.Success? ==> !r.value.isHumanInLoop && r.value.event == None && r.value.threadId == s.threadId
    ensures r.Success? ==>
      PendingCall(s).Success? &&
      var outcome := invoke(s.threadId, DecisionInput(d, PendingCall(s).value));
      outcome.Invoked? && |outcome.result.messages| > 0 &&
      r.value.messages == s.messages +
        [ChatEntry(UserRole, Text(DecisionMarker(d))),
         ChatEntry(AssistantRole, Last(outcome.result.messages).content)]
    ensures r.Failure? <==>
      PendingCall(s).Failure? ||
      var outcome := invoke(s.threadId, DecisionInput(d, PendingCall(s).value));
      outcome.InvokeRaised? || |outcome.result.messages| == 0
  {
    match PendingCall(s)
    case Failure(f) => Failure(f)
    case Success(call) =>
      match invoke(s.threadId, DecisionInput(d, call))
      case InvokeRaised(e) => Failure(InvokeFailed(e))
      case Invoked(result) =>
        if |result.messages| == 0 then Failure(EmptyResult)
        else
          var reply := ChatEntry(AssistantRole, Last(result.messages).content);
          Success(s.(messages := s.messages + [ChatEntry(UserRole, Text(DecisionMarker(d))), reply],
                     isHumanInLoop := false, event := None))
  }

  /** While the gate is consistent, the dialog always finds its pending call
      and shows the prompt dedicated to that sensitive tool. */
  lemma PendingPromptIsDedicated(s: Session)
    requires GateWellFormed(s) && s.isHumanInLoop
    ensures PendingCall(s).Success?
    ensures PendingCall(s).value.name in Graph.SensitiveToolNames
    ensures ConfirmationPrompt(PendingCall(s).value.name) != DefaultPrompt
  {
  }

  // ------------------------------------------------------------------ reset

  /** The reset button as written: the history is emptied and a fresh thread
      id is taken, but the pending flag and event are kept. */
  function ResetChatAsWritten(s: Session, freshId: string): (r: Session)
    ensures r.messages == [] && r.threadId == freshId
    ensures r.isHumanInLoop == s.isHumanInLoop && r.event == s.event
  {
    s.(messages := [], threadId := freshId)
  }

  /** As written, a reset during a pending decision is not a new session: the
      dialog for the old thread's call stays armed on the new thread. */
  lemma ResetAsWrittenKeepsPendingDecision(s: Session, freshId: string)
    requires s.isHumanInLoop
    ensures ResetChatAsWritten(s, freshId).isHumanInLoop
    ensures ResetChatAsWritten(s, freshId) != InitialSession(freshId)
  {
  }

  /** The reset with the pending decision discarded as well: whatever the
      session was, the result is a new session on the fresh thread. */
  function ResetChat(s: Session, freshId: string): (r: Session)
    ensures r == InitialSession(freshId)
  {
    s.(messages := [], threadId := freshId, isHumanInLoop := false, event := None)
  }

  // ------------------------------------------------------------ interaction

  /** A user interaction with the page: a chat prompt, a dialog decision, or
      the reset button (with the fresh thread id it draws). */
  datatype Action =
    | ChatInput(prompt: string, stream: (string, seq<Message>) -> StreamOutcome)
    | Decide(decision: Decision, invoke: (string, GraphInput) -> InvokeOutcome)
    | Reset(freshId: string)

  /** The session after an interaction, with the reset as the program has it.
      The dialog, and so a decision, exists only while the flag is set; a
      decision either resolves the gate or, when the dialog aborts, leaves the
      session as it was. Only a reset changes the thread. */
  function Apply(s: Session, a: Action): (r: Session)
    ensures !a.Reset? ==> r.threadId == s.threadId
    ensures a.Decide? && !s.isHumanInLoop ==> r == s
    ensures a.Decide? ==> r == s || (!r.isHumanInLoop && r.event == None)
    ensures a.Reset? ==> r.messages == [] && r.threadId == a.freshId
  {
    match a
    case ChatInput(prompt, stream) => HandleChatInput(s, prompt, stream).session
    case Decide(d, invoke) =>
      if !s.isHumanInLoop then s
      else
        (match ConfirmChange(s, d, invoke)
         case Success(s') => s'
         case Failure(_) => s)
    case Reset(freshId) => ResetChatAsWritten(s, freshId)
  }

  /** The same interaction with the corrected reset. */
  function ApplyCorrected(s: Session, a: Action): (r: Session)
    ensures a.Reset? ==> r == InitialSession(a.freshId)
    ensures !a.Reset? ==> r == Apply(s, a)
  {
    match a
    case Reset(freshId) => ResetChat(s, freshId)
    case _ => Apply(s, a)
  }

  /** The correction matters only for a reset while a decision or an event is
      pending; otherwise the program's reset already gives a new session. */
  lemma CorrectionOnlyAffectsPendingReset(s: Session, a: Action)
    ensures Apply(s, a) != ApplyCorrected(s, a) <==> a.Reset? && (s.isHumanInLoop || s.event.Some?)
  {
  }

  function ApplyAll(s: Session, actions: seq<Action>): Session
    decreases |actions|
  {
    if |actions| == 0 then s else ApplyAll(Apply(s, actions[0]), actions[1..])
  }

  /** The graph honours its contract: it reports a pending node only after
      streaming at least one state, whose last message proposes a sensitive
      call (the compiled graph halts only before the sensitive-tool node). */
  ghost predicate FaithfulStream(stream: (string, seq<Message>) -> StreamOutcome)
  {
    forall t, input ::
      var o := stream(t, input);
      o.Streamed? && |o.next| > 0 ==>
        |o.events| > 0 && Graph.RouteTools(Last(o.events).messages) == Success(Graph.ToSensitiveTools)
  }

  ghost predicate FaithfulAction(a: Action)
  {
    a.ChatInput? ==> FaithfulStream(a.stream)
  }

  /** Every interaction keeps the gate consistent, the program's own reset
      included: it keeps the flag and the event together. */
  lemma ApplyKeepsGate(s: Session, a: Action)
    requires GateWellFormed(s) && FaithfulAction(a)
    ensures GateWellFormed(Apply(s, a))
  {
  }

  /** From a consistent session, any sequence of interactions with a faithful
      graph leaves the gate consistent: a pending flag always comes with the
      sensitive call it is about. */
  lemma {:induction false} GateConsistentAlongRun(s: Session, actions: seq<Action>)
    requires GateWellFormed(s)
    requires forall i :: 0 <= i < |actions| ==> FaithfulAction(actions[i])
    ensures GateWellFormed(ApplyAll(s, actions))
    decreases |actions|
  {
    if |actions| > 0 {
      ApplyKeepsGate(s, actions[0]);
      GateConsistentAlongRun(Apply(s, actions[0]), actions[1..]);
    }
  }
}

=== FILE: stream_data.dfy ===
/** The chat's word-by-word streaming of a reply: the text is split at every
    single space and each piece is yielded followed by one space. The delay
    between chunks is not modelled. */
module StreamData {
  import Chars

  /** The chunks joined in order. */
  function Concat(chunks: seq<string>): string
  {
    if |chunks| == 0 then "" else chunks[0] + Concat(chunks[1..])
  }

  lemma {:induction false} ConcatAppend(chunks: seq<string>, last: string)
    ensures Concat(chunks + [last]) == Concat(chunks) + last
    decreases |chunks|
  {
    if |chunks| == 0 {
      assert chunks + [last] == [last];
    } else {
      assert (chunks + [last])[1..] == chunks[1..] + [last];
      ConcatAppend(chunks[1..], last);
    }
  }

  /** A streamed chunk: a word without spaces followed by exactly one space. */
  predicate IsWordChunk(w: string)
  {
    |w| > 0 && w[|w| - 1] == ' ' && ' ' !in w[..|w| - 1]
  }

  /** The chunks of `text`: one per space-separated word (empty words
      included, as splitting at a single space gives), each ending in one
      space; together they spell the text followed by a space. */
  method StreamChunks(text: string) returns (chunks: seq<string>)
    ensures |chunks| == Chars.CountChar(text, ' ') + 1
    ensures forall i :: 0 <= i < |chunks| ==> IsWordChunk(chunks[i])
    ensures Concat(chunks) == text + " "
  {
    chunks := [];
    var word := "";
    var i := 0;
    while i < |text|
      invariant 0 <= i <= |text|
      invariant Concat(chunks) + word == text[..i]
      invariant forall k :: 0 <= k < |chunks| ==> IsWordChunk(chunks[k])
      invariant ' ' !in word
      invariant |chunks| == Chars.CountChar(text[..i], ' ')
    {
      assert text[..i + 1][..i] == text[..i];
      assert text[..i + 1] == text[..i] + [text[i]];
      if text[i] == ' ' {
        ConcatAppend(chunks, word + " ");
        assert (word + " ")[..|word + " "| - 1] == word;
        chunks := chunks + [word + " "];
        word := "";
      } else {
        word := word + [text[i]];
      }
      i := i + 1;
    }
    assert text[..i] == text;
    ConcatAppend(chunks, word + " ");
    assert (word + " ")[..|word + " "| - 1] == word;
    chunks := chunks + [word + " "];
  }

  /** In a text that starts with a word chunk, the chunk's closing space is
      the first space. */
  lemma FirstSpace(x: string, rest: string)
    requires IsWordChunk(x)
    ensures (x + rest)[|x| - 1] == ' '
    ensures forall k :: 0 <= k < |x| - 1 ==> (x + rest)[k] != ' '
  {
  }

  /** Two word chunks that start the same text are the same chunk. */
  lemma ChunkPrefixUnique(x: string, y: string, xs: string, ys: string)
    requires IsWordChunk(x) && IsWordChunk(y)
    requires x + xs == y + ys
    ensures x == y
  {
    FirstSpace(x, xs);
    FirstSpace(y, ys);
    assert |x| == |y|;
    assert x == (x + xs)[..|x|] == (y + ys)[..|y|] == y;
  }

  /** The chunking is determined by its text: two sequences of word chunks
      that spell the same string are equal, so the streamed chunks are exactly
      the words of the text. */
  lemma {:induction false} ChunkingUnique(a: seq<string>, b: seq<string>)
    requires forall i :: 0 <= i < |a| ==> IsWordChunk(a[i])
    requires forall i :: 0 <= i < |b| ==> IsWordChunk(b[i])
    requires Concat(a) == Concat(b)
    ensures a == b
    decreases |a|
  {
    if |a| > 0 && |b| > 0 {
      ChunkPrefixUnique(a[0], b[0], Concat(a[1..]), Concat(b[1..]));
      assert Concat(a[1..]) == Concat(a)[|a[0]|..];
      assert Concat(b[1..]) == Concat(b)[|b[0]|..];
      ChunkingUnique(a[1..], b[1..]);
      assert a == [a[0]] + a[1..];
      assert b == [b[0]] + b[1..];
    }
  }
}

=== FILE: tools.dfy ===
/** The tool-node utilities: turning a tool failure into tool-result
    messages, the fallback that wraps every tool node, and event printing. */
module Tools {
  import opened Wrappers
  import opened Messages

  /** Text of the tool-result message that reports a tool failure; `errorRepr`
      is the Python repr of the raised exception. */
  function ErrorContent(errorRepr: string): string
  {
    "Error: " + errorRepr + "\n please fix your mistakes."
  }

  /** Every call of `calls` is answered, in order, by the message at the same
      position of `replies`. */
  predicate AnswersEach(calls: seq<ToolCall>, replies: seq<Message>)
  {
    |replies| == |calls| && forall i :: 0 <= i < |calls| ==> Answers(replies[i], calls[i])
  }

  /** The error handler: one error tool message per tool call of the last
      message. The source indexes the last message, so a non-empty list is
      demanded. */
  function HandleToolError(errorRepr: string, messages: seq<Message>): (replies: seq<Message>)
    requires |messages| > 0
    ensures AnswersEach(Last(messages).toolCalls, replies)
    ensures forall i :: 0 <= i < |replies| ==> replies[i].content == Text(ErrorContent(errorRepr))
  {
    var calls := Last(messages).toolCalls;
    seq(|calls|, i requires 0 <= i < |calls| => ToolReply(calls[i].id, ErrorContent(errorRepr)))
  }

  /** What the wrapped tool node did: returned its tool messages, or raised
      an exception whose repr is given. */
  datatype ToolOutcome = Returned(messages: seq<Message>) | Raised(errorRepr: string)

  /** The handler itself fails on an empty message list (it reads the last
      message); that failure propagates out of the node. */
  datatype FallbackFailure = NoMessageToAnswer

  /** A tool node with the error-handler fallback: a raised exception is
      replaced by the handler's output instead of propagating. */
  function WithFallback(outcome: ToolOutcome, messages: seq<Message>): (r: Result<seq<Message>, FallbackFailure>)
    ensures outcome.Returned? ==> r == Success(outcome.messages)
    ensures r.Failure? <==> outcome.Raised? && |messages| == 0
    ensures outcome.Raised? && r.Success? ==>
      AnswersEach(Last(messages).toolCalls, r.value) &&
      forall i :: 0 <= i < |r.value| ==> r.value[i].content == Text(ErrorContent(outcome.errorRepr))
  {
    match outcome
    case Returned(ms) => Success(ms)
    case Raised(e) =>
      if |messages| == 0 then Failure(NoMessageToAnswer)
      else Success(HandleToolError(e, messages))
  }

  const TruncationMarker := " ... (truncated)"

  /** The printed form of a message representation: at most `maxLength`
      characters are kept, and a cut is marked. */
  function Truncate(text: string, maxLength: nat): (r: string)
    ensures |text| <= maxLength ==> r == text
    ensures |text| > maxLength ==> |r| == maxLength + |TruncationMarker|
    ensures |text| > maxLength ==> r[..maxLength] == text[..maxLength] && r[maxLength..] == TruncationMarker
  {
    if |text| > maxLength then text[..maxLength] + TruncationMarker else text
  }

  /** The "messages" entry of a streamed event: absent, one message, or a list. */
  datatype EventMessages = NoMessages | OneMessage(message: Message) | MessageList(list: seq<Message>)

  /** A streamed event; an empty `dialogState` stands for an absent one. */
  datatype PrintEvent = PrintEvent(dialogState: seq<string>, messages: EventMessages)

  /** Lines written and the set of message ids printed so far. */
  datatype Printed = Printed(lines: seq<string>, printed: set<Option<string>>)

  /** The message an event would print, if any: the single message, or the
      last of a non-empty list. */
  function EventMessage(messages: EventMessages): Option<Message>
  {
    match messages
    case NoMessages => None
    case OneMessage(m) => Some(m)
    case MessageList(ms) => if |ms| == 0 then None else Some(Last(ms))
  }

  /** Prints the current dialog state (if any) and the event's message unless
      its id was printed before; `render` is the message's pretty
      representation. */
  function PrintEventOnce(event: PrintEvent, printed: set<Option<string>>, maxLength: nat,
                          render: Message -> string): (r: Printed)
    ensures printed <= r.printed
    ensures EventMessage(event.messages).None? ==> r.printed == printed
    ensures EventMessage(event.messages).Some? ==>
      r.printed == printed + {EventMessage(event.messages).value.id}
    ensures |r.lines| == (if |event.dialogState| > 0 then 1 else 0) +
      (if EventMessage(event.messages).Some? && EventMessage(event.messages).value.id !in printed then 1 else 0)
    ensures |event.dialogState| > 0 ==> r.lines[0] == "Currently in:  " + Last(event.dialogState)
    ensures EventMessage(event.messages).Some? && EventMessage(event.messages).value.id !in printed ==>
      Last(r.lines) == Truncate(render(EventMessage(event.messages).value), maxLength)
  {
    var stateLines := if |event.dialogState| > 0 then ["Currently in:  " + Last(event.dialogState)] else [];
    match EventMessage(event.messages)
    case None => Printed(stateLines, printed)
    case Some(m) =>
      if m.id in printed then Printed(stateLines, printed)
      else Printed(stateLines + [Truncate(render(m), maxLength)], printed + {m.id})
  }

  /** Printing is idempotent per message id: feeding the same event again
      prints no message line and leaves the printed set as it was. */
  lemma PrintEventDeduplicates(event: PrintEvent, printed: set<Option<string>>, maxLength: nat,
                               render: Message -> string)
    ensures var first := PrintEventOnce(event, printed, maxLength, render);
      var again := PrintEventOnce(event, first.printed, maxLength, render);
      again.printed == first.printed && |again.lines| == (if |event.dialogState| > 0 then 1 else 0)
  {
  }
}

=== FILE: wrappers.dfy ===
/** An optional value and a value-or-error result. */
module Wrappers {

  datatype Option<+T> = None | Some(value: T)

  /** Either a computed value or the error the source would raise instead. */
  datatype Result<+R, +E> = Success(value: R) | Failure(error: E)
}
